=== FILE: README.md ===
# Crash and loss-of-control monitors of ArduCopter, in Dafny

This project models the safety monitors that ArduCopter runs once per main-loop
tick in `ArduCopter/crash_check.cpp`:

- **crash_check**, when enabled (`fs_crash_check` non-zero), disarms the
  motors after two seconds of ticks on which the vehicle is armed, flying, in
  an angle-stabilised mode, accelerating less than 3 m/s/s and more than 30
  degrees off its attitude target. Any tick without all of these resets the
  counter. With the check switched off, every tick resets the counter and
  nothing is ever disarmed.
- **parachute_check** runs a loss-of-control debounce counter with extra rules.
  Disarmed, ACRO/FLIP, landed, or both climb-rate sources climbing reset it.
  Disagreeing sources hold it. A fresh episode below the minimum altitude is
  ignored. A good attitude takes one off it. A bad attitude adds one, up to a
  bound of `trigger_delay_ms * loop_rate_hz / 1000` ticks (uint32 arithmetic).
  The tick that brings the counter up to the bound releases nothing. The next
  bad-attitude tick finds the counter at the bound, releases the parachute and
  resets the counter, so a continuous episode releases on tick bound + 1.
- **parachute_release** and **parachute_manual_release** make up the release
  sequence (notify, log, disarm, release, deploy the landing gear) and the
  pilot-requested release with its landed and too-low refusals.
- The **GCS message throttle** is repeated before every debug notification of
  `parachute_check`. A message goes out iff `now - last_gcs_sent > 500` in
  uint32 arithmetic or its kind differs from `last_gcs_type`. The model writes
  it once (`StatusThrottle.Notify`) and every branch uses it.

The function-local `static` variables become explicit state records
(`CrashState`, `ParachuteState` with its `Throttle`). Each call becomes a pure
step function that returns the new state and the ordered list of actions the
tick emits: `Disarm`, `ParachuteUpdate`, `ParachuteRelease`, `GearDeploy`,
`Send(severity, text)`, `LogError(code)`, `LogReleasedEvent`. Vehicle parameters
(`Config`) are fixed across a run. The per-tick inputs (`Telemetry`, including
the `millis()` clock) are supplied by the caller.

Modules: `Types` (shared vocabulary), `StatusThrottle`, `CrashCheck`,
`ParachuteCheck` (the step functions), `ParachuteLemmas` (one-tick properties),
`ParachuteRuns` (properties of runs of ticks), `Monitors` (both monitors on one
tick).

Points where the code is followed over its comments:

- The comment at line 9 says 20 degrees for 1 second. The code uses 30 degrees
  and 2 seconds (lines 4-5, 35, 44).
- The comment at line 60 says "continuously for 1 second". The count actually
  runs up to the bound from line 184. The release comes on the tick after the
  bound is reached, so on tick bound + 1 of a continuous episode: tick 401 at
  400 Hz with a 1000 ms delay, not tick 400 (`ParachuteRuns.ReleaseTickAt400Hz`).
- `parachute_check` compares the angle against `CRASH_CHECK_ANGLE_DEVIATION_DEG`
  (line 161). `PARACHUTE_CHECK_ANGLE_DEVIATION_CD` (line 57) is unused.
- `parachute.update()` is called only when the parachute is enabled
  (lines 69-74). A disabled parachute check leaves its counter untouched even
  when disarmed, so "disarmed resets both counters" holds only with the
  parachute enabled (`Monitors.DisarmedResetsBoth`).
- In the manual release, the enabled check comes first (line 234) and the
  landed check second. The landed refusal is sent at INFO severity (line 242).
  The too-low refusal is sent at ALERT (line 251).
- The altitude gate multiplies `alt_min` by 100 before comparing it with the
  altitude in centimetres, so `alt_min` is in metres. Any non-zero value arms
  the gate, including a negative one (line 154).
- Nothing in the code latches the release; the comments at lines 59-60 and
  194 only say when it triggers. The release zeroes the counter, and if the
  disarm it asks for does not take effect, a continuing loss of control
  releases again every bound + 1 ticks while `armed` stays true
  (`ParachuteRuns.ReleaseEveryBoundPlusOneTicks`). The crash check does not
  latch either: it asks for a disarm on every qualifying tick past its
  threshold (`CrashCheck.CounterWithinThreshold`).
- The throttle holds back a same-kind message when exactly 500 ms have passed
  (`> 500`, not `>= 500`).

## Model

| member | source | states |
|---|---|---|
| StatusThrottle.Elapsed | ArduCopter/crash_check.cpp:82 | the uint32 difference `now - last_gcs_sent` is the forward distance from `last` to `now`: `now - last` without wrap, `2^32 - (last - now)` after the clock wraps |
| StatusThrottle.Notify | ArduCopter/crash_check.cpp:81-86 | at most one message per offer; it is sent iff more than 500 ms have elapsed or the kind changed; sending records time and kind, holding back changes nothing; it never commands hardware |
| StatusThrottle.NewKindAlwaysSent | ArduCopter/crash_check.cpp:82 | a kind other than the last one sent is never held back, whatever the clock says |
| StatusThrottle.SameKindWindow | ArduCopter/crash_check.cpp:82-85 | after a kind has been sent at time t, the same kind is sent again at `now` iff more than 500 ms separate t and `now`, counted modulo 2^32 |
| StatusThrottle.OncePerTick | ArduCopter/crash_check.cpp:162-179 | offering the same kind twice with the same clock value sends at most one message, as on the good-angle path where two kind-5 offers share one `now` |
| CrashCheck.CrashStep | ArduCopter/crash_check.cpp:11-52 | any disqualifying condition (disarmed, landed, check off, ACRO/FLIP, accel >= 3.0, angle error <= 30) zeroes the counter and emits nothing; otherwise the counter goes up by one (uint16); a disarm is emitted iff the tick qualifies and the new counter is at least 2 * loop rate; the only action list is error log, EMERGENCY text, disarm; the counter stays within the threshold when a disarm is followed by a disarmed tick |
| CrashCheck.CounterIsStreak | ArduCopter/crash_check.cpp:13-41 | from start-up, over a run of any length, the uint16 counter equals the number of consecutive qualifying ticks at the end of the run, modulo 2^16 |
| CrashCheck.DisarmIffStreakReachesThreshold | ArduCopter/crash_check.cpp:41-51 | tick k of a run of any length disarms iff the streak of qualifying ticks ending at tick k is at least 2 * loop rate long, as long as that streak has not wrapped the uint16 counter |
| CrashCheck.ContinuousCrashDisarmsAtThreshold | ArduCopter/crash_check.cpp:41-51 | with every tick qualifying from start-up, tick k (below 2^16) disarms iff k >= 2 * loop rate: the first disarm is on tick 2 * loop rate, never earlier |
| CrashCheck.CounterWithinThreshold | ArduCopter/crash_check.cpp:16-51 | the check does not latch; if every disarm is followed by a disarmed tick, the counter never exceeds 2 * loop rate |
| ParachuteCheck.Bound | ArduCopter/crash_check.cpp:184 | the cap is the uint32 product of trigger delay and loop rate, divided by 1000; without overflow it is the floor of delay * rate / 1000 |
| ParachuteCheck.ReleaseActions | ArduCopter/crash_check.cpp:213-227 | parachute_release is five actions: it commands exactly disarm, parachute release and gear deploy, in that order, and also sends the INFO "Released" text and logs the release event |
| ParachuteCheck.ResetWith | ArduCopter/crash_check.cpp:76-132 | each reset guard zeroes the counter and commands nothing; its one notification (the guard's text, DEBUG) is sent iff more than 500 ms have passed or the kind changed, and the throttle then records the time and the guard's kind, otherwise stays as it was |
| ParachuteCheck.HoldWith | ArduCopter/crash_check.cpp:133-150 | a climb-rate disagreement keeps the counter and commands nothing; the kind-8 "not agree" text is sent iff more than 500 ms have passed or the last kind was not 8, and the throttle records (now, 8) exactly then |
| ParachuteCheck.GoodAngleStep | ArduCopter/crash_check.cpp:161-181 | a good attitude takes one off the counter with floor 0 and commands nothing; a kind-5 message goes out iff the throttle lets kind 5 through, and it is the "reduce counter" text with the new count when the counter was above zero, the "counter is 0" text otherwise (the second offer of the tick is always held back); the throttle records (now, 5) exactly when it sends |
| ParachuteCheck.IncreaseStep | ArduCopter/crash_check.cpp:184-193 | below the cap the counter goes up by exactly one, wrapping to 0 at 2^16, and nothing is commanded; the kind-6 text carrying the new count is sent iff the throttle lets kind 6 through, and the throttle records (now, 6) exactly then |
| ParachuteCheck.LossNotices | ArduCopter/crash_check.cpp:199-206 | the release branch's notices: the kind-7 "Releasing" text, first and only iff the throttle lets kind 7 through, with the throttle recording (now, 7) exactly then, and the loss-of-control error log; no hardware command |
| ParachuteCheck.ReleaseStep | ArduCopter/crash_check.cpp:194-209 | at the cap the counter is zeroed, the loss-of-control error is logged, and the commands are exactly disarm, release, deploy; the kind-7 "Releasing" text goes out first iff the throttle lets kind 7 through, and the throttle records (now, 7) exactly then; the branch ends with the whole of parachute_release (line 208), its INFO text and release event included |
| ParachuteCheck.Evaluate | ArduCopter/crash_check.cpp:76-209 | after `parachute.update()`, a tick sends at most one debug notification, keeps a counter within the bound within it, and commands either nothing or exactly disarm, release, deploy, in which case the counter is left at zero |
| ParachuteCheck.ParachuteStep | ArduCopter/crash_check.cpp:62-210 | a disabled parachute changes no state and emits nothing; an enabled one calls `parachute.update()` first; a counter within the bound stays within it; at most one debug notification per tick |
| ParachuteCheck.ManualRelease | ArduCopter/crash_check.cpp:231-259 | disabled does nothing; hardware is commanded iff enabled, not landed and not below the minimum altitude, and then the actions are exactly the release sequence; landed refuses with exactly the INFO text and the LANDED error, whatever the altitude; too low (and not landed) refuses with exactly the ALERT text and the TOO_LOW error |
| ParachuteLemmas.ResetGuards | ArduCopter/crash_check.cpp:76-132 | when enabled, disarmed, ACRO/FLIP, landed, or both sources climbing zero the counter and command nothing |
| ParachuteLemmas.DisagreementHolds | ArduCopter/crash_check.cpp:121-151 | when enabled and flying, a barometer and an estimator that disagree about climbing leave the counter unchanged and command nothing |
| ParachuteLemmas.AltitudeGateHolds | ArduCopter/crash_check.cpp:153-156 | with the counter at zero and the altitude under `alt_min * 100`, the tick only calls `parachute.update()`; counter and throttle are unchanged |
| ParachuteLemmas.GoodAngleHysteresis | ArduCopter/crash_check.cpp:158-181 | past the gates, an angle error of at most 30 degrees makes the counter max(count - 1, 0), never zero from above one, and releases nothing |
| ParachuteLemmas.BadAngleUnderCapCounts | ArduCopter/crash_check.cpp:183-193 | past the gates, a bad attitude under the cap adds exactly one to the counter and releases nothing |
| ParachuteLemmas.BadAngleAtCapReleases | ArduCopter/crash_check.cpp:194-209 | past the gates, a bad attitude at or over the cap zeroes the counter, logs the loss of control, and commands disarm, release, deploy |
| ParachuteLemmas.AtCapTick | ArduCopter/crash_check.cpp:62-209 | a tick that passes every gate with a bad attitude and finds the counter at or over the cap is `parachute.update()` followed by the release branch, whatever the throttle |
| ParachuteLemmas.AutomaticReleaseEndsWithRelease | ArduCopter/crash_check.cpp:194-227 | such a tick emits, in order, `parachute.update()`, the throttled kind-7 text and the loss-of-control log, then the five actions of parachute_release, the same list a manual release performs |
| ParachuteLemmas.ReleaseIff | ArduCopter/crash_check.cpp:62-209 | a tick releases the parachute iff it is enabled, flying, descending on both sources, past the altitude gate, has a bad attitude, and finds the counter at or over the cap |
| ParachuteLemmas.ManualMatchesAutomaticRelease | ArduCopter/crash_check.cpp:231-259 | a manual release that passes its guards commands the hardware exactly as an automatic release does |
| ParachuteRuns.CountStaysWithinBound | ArduCopter/crash_check.cpp:184-196 | over any run of ticks with fixed parameters, a counter that starts within [0, bound] stays within it |
| ParachuteRuns.ContinuousLossCycles | ArduCopter/crash_check.cpp:183-209 | under continuous loss of control from zero (bound < 2^16), the counter after n ticks is n mod (bound + 1) |
| ParachuteRuns.ReleaseEveryBoundPlusOneTicks | ArduCopter/crash_check.cpp:183-209 | under continuous loss of control from zero, tick k releases the parachute iff k is a multiple of bound + 1 |
| ParachuteRuns.FirstReleaseOnTickBoundPlusOne | ArduCopter/crash_check.cpp:184-209 | under continuous loss of control from zero, ticks 1 to bound release nothing and tick bound + 1 releases |
| ParachuteRuns.ReleaseTickAt400Hz | ArduCopter/crash_check.cpp:184 | with a 1000 ms delay at 400 Hz the bound is 400; tick 400 does not release, tick 401 does |
| ParachuteLemmas.ThrottleFollowsTickKind | ArduCopter/crash_check.cpp:62-209 | every tick that offers a notification offers one kind, fixed by the guard or branch it reaches (1 not armed, 2 ACRO/FLIP, 3 landed, 4 climbing, 8 disagreement, 5 good angle, 6 increase, 7 release); the throttle then records (now, kind) iff more than 500 ms have passed or that kind differs from the last one, and is unchanged otherwise |
| ParachuteLemmas.EvaluateFollowsTickKind | ArduCopter/crash_check.cpp:76-209 | after `parachute.update()`, each branch runs the throttle on its own kind, and the message it lets through comes first and carries that branch's text (the reduce/increase texts with the new counter) |
| ParachuteLemmas.NotificationFollowsTickKind | ArduCopter/crash_check.cpp:62-209 | such a tick sends one debug message iff more than 500 ms have passed or its kind differs from the last one sent, and that message, right after `parachute.update()`, is the text of the branch taken: "motors not armed" for kind 1, "landed" for kind 3, and so on |
| ParachuteLemmas.QuietTickKeepsThrottle | ArduCopter/crash_check.cpp:68-71 | a disabled parachute, or a fresh episode under the minimum altitude (lines 153-156), sends no debug message and leaves the throttle alone |
| Monitors.DisarmedResetsBoth | ArduCopter/crash_check.cpp:16-88 | a disarmed tick zeroes the crash counter and emits nothing from it; with the parachute enabled it also zeroes the loss-of-control counter and commands nothing; with it disabled that state is untouched |

## Left out

- `Log_Write_Data` calls (lines 79, 93, 107, 118-119, 125, 160, 166, 186, 197) are not modelled. They only record values in the dataflash log. `Log_Write_Error` and `Log_Write_Event` appear as opaque `LogError` and `LogReleasedEvent` actions.
- `gcs().send_text` is reduced to a severity and a message identity. The identity carries the counter value where the text prints it. Formatting and transport are not modelled.
- `parachute.update()`, `parachute.release()`, `landinggear.set_position` and `init_disarm_motors` are foreign calls. They appear only as action tokens. Their timing and idempotence belong to code outside this model.
- A disarm does not feed back into the model's next tick. `armed` is an input of every tick, and `CrashCheck.CounterWithinThreshold` takes "the disarm took effect" as a hypothesis on the run.
- The filtered acceleration norm, the attitude error and the barometric climb rate are floating-point producers. They are taken as real-valued inputs, and only the comparisons against 3.0, 30 and the climb-rate sign are modelled. `is_positive` on the barometric rate is taken as `x >= FLT_EPSILON`, the definition in AP_Math. AP_Math itself is not part of this model.
- Real-valued inputs cannot be NaN in this model. In the source a NaN would behave as follows. A NaN attitude error fails both `<=` tests (lines 35 and 161), so it counts as a bad attitude in both checks. A NaN acceleration norm fails `>=` (line 28), so it does not disqualify a crash tick. A NaN barometric climb rate is not positive (line 121), so it reads as not climbing.
- `AP_HAL::millis()` is an input of the tick (`nowMs`). The source reads it again in each branch; every branch reads it once, so one value per tick is the same thing.
- The parameter types behind `g2.parachute_trigger_delay` and `parachute.alt_min()` are not part of this model. The delay is taken as the value after its `uint32_t` cast, and the minimum altitude as an integer.
- The `PARACHUTE == ENABLED` build switch is taken as on.
- CrashCheck.DisarmIffStreakReachesThreshold: covers only streaks shorter than 2^16 ticks and a non-zero loop rate. A longer streak has wrapped `crash_counter`, and `CounterIsStreak` gives the counter's value then.
- CrashCheck.ContinuousCrashDisarmsAtThreshold: covers only ticks k below 2^16 and a non-zero loop rate. A longer continuous streak wraps `crash_counter` and the disarms stop for a while, as `CounterIsStreak` describes.
- CrashCheck.CounterWithinThreshold: assumes a non-zero loop rate. With a zero threshold, the tick that fires leaves the counter at 1.
- ParachuteRuns.ContinuousLossCycles: assumes a bound below 2^16. Over that, the uint16 `control_loss_count` wraps before reaching the cap. The wrap itself is modelled in `IncreaseStep`.
- ParachuteRuns.ReleaseEveryBoundPlusOneTicks: assumes a bound below 2^16, for the same reason.
- ParachuteRuns.FirstReleaseOnTickBoundPlusOne: assumes a bound below 2^16, for the same reason.

=== FILE: crash_check.dfy ===
/**
 * Copter::crash_check: a debounce counter that disarms the motors once the
 * vehicle has sat more than 30 degrees off its attitude target, with little
 * acceleration, for two seconds of consecutive main-loop ticks.
 */
module CrashCheck {
  import opened Types

  const TriggerSec: int := 2
  const AngleDeviationDeg: real := 30.0
  const AccelMax: real := 3.0

  /** The static `crash_counter`. */
  datatype CrashState = CrashState(counter: U16)

  /** The static starts at zero. */
  const CrashInitial: CrashState := CrashState(0)

  /** Ticks of continuous inversion that prove a crash. */
  function Threshold(cfg: Config): int {
    TriggerSec * cfg.loopRateHz
  }

  /** A condition under which the tick disproves a crash. */
  predicate Disqualified(cfg: Config, tel: Telemetry) {
    || !tel.armed
    || tel.landed
    || cfg.crashCheck == 0
    || IsAcroOrFlip(tel.mode)
    || tel.accel >= AccelMax
    || tel.angleErrorDeg <= AngleDeviationDeg
  }

  /** What the tick emits once the counter has reached the threshold. */
  const DisarmActions: seq<Action> :=
    [LogError(CrashDetected), Send(Emergency, CrashDisarming), Disarm]

  /** One call of crash_check. */
  function CrashStep(s: CrashState, cfg: Config, tel: Telemetry): (r: Step<CrashState>)
    ensures Disqualified(cfg, tel) ==> r.state.counter == 0 && r.actions == []
    ensures !Disqualified(cfg, tel) && s.counter + 1 < U16Modulus ==> r.state.counter == s.counter + 1
    ensures Disarm in r.actions <==> !Disqualified(cfg, tel) && r.state.counter >= Threshold(cfg)
    ensures r.actions != [] ==> r.actions == DisarmActions
    // With the disarm honoured on the tick after it fires, the counter never passes the threshold.
    ensures s.counter <= Threshold(cfg) && (s.counter == Threshold(cfg) ==> !tel.armed)
            ==> r.state.counter <= Threshold(cfg)
  {
    if !tel.armed || tel.landed || cfg.crashCheck == 0 then Step(CrashState(0), [])
    else if IsAcroOrFlip(tel.mode) then Step(CrashState(0), [])
    else if tel.accel >= AccelMax then Step(CrashState(0), [])
    else if tel.angleErrorDeg <= AngleDeviationDeg then Step(CrashState(0), [])
    else
      var c := (s.counter + 1) % U16Modulus;
      if c >= Threshold(cfg) then Step(CrashState(c), DisarmActions)
      else Step(CrashState(c), [])
  }

  /** The counter after feeding `tels` to crash_check from start-up, one tick each. */
  function CrashRun(cfg: Config, tels: seq<Telemetry>): CrashState
    decreases |tels|
  {
    if |tels| == 0 then CrashInitial
    else CrashStep(CrashRun(cfg, tels[..|tels| - 1]), cfg, tels[|tels| - 1]).state
  }

  /** The actions of tick `k` (counted from 1) of the run `tels`. */
  function CrashTickActions(cfg: Config, tels: seq<Telemetry>, k: int): seq<Action>
    requires 1 <= k <= |tels|
  {
    CrashStep(CrashRun(cfg, tels[..k - 1]), cfg, tels[k - 1]).actions
  }

  /** Reference definition: the number of qualifying ticks at the end of `tels`. */
  function QualifyingStreak(cfg: Config, tels: seq<Telemetry>): (n: nat)
    ensures n <= |tels|
    ensures n == |tels| <==> forall i :: 0 <= i < |tels| ==> !Disqualified(cfg, tels[i])
    decreases |tels|
  {
    if |tels| == 0 then 0
    else if Disqualified(cfg, tels[|tels| - 1]) then 0
    else 1 + QualifyingStreak(cfg, tels[..|tels| - 1])
  }

  /** The counter is the current streak of qualifying ticks, modulo the uint16_t wrap. */
  lemma {:induction false} CounterIsStreak(cfg: Config, tels: seq<Telemetry>)
    ensures CrashRun(cfg, tels).counter == QualifyingStreak(cfg, tels) % U16Modulus
    decreases |tels|
  {
    if |tels| > 0 {
      CounterIsStreak(cfg, tels[..|tels| - 1]);
    }
  }

  /** Tick `k` disarms exactly when the streak ending at it is at least two seconds long. */
  lemma DisarmIffStreakReachesThreshold(cfg: Config, tels: seq<Telemetry>, k: int)
    requires cfg.loopRateHz > 0
    requires 1 <= k <= |tels|
    requires QualifyingStreak(cfg, tels[..k]) < U16Modulus
    ensures Disarm in CrashTickActions(cfg, tels, k) <==> QualifyingStreak(cfg, tels[..k]) >= Threshold(cfg)
  {
    var p := tels[..k];
    assert p[..k - 1] == tels[..k - 1];
    assert p[k - 1] == tels[k - 1];
    CounterIsStreak(cfg, p);
  }

  /**
   * From start-up, with every tick qualifying, the first disarm comes on tick
   * 2 * loop rate and not one tick earlier.
   */
  lemma ContinuousCrashDisarmsAtThreshold(cfg: Config, tels: seq<Telemetry>, k: int)
    requires cfg.loopRateHz > 0
    requires forall i :: 0 <= i < |tels| ==> !Disqualified(cfg, tels[i])
    requires 1 <= k <= |tels| && k < U16Modulus
    ensures Disarm in CrashTickActions(cfg, tels, k) <==> k >= Threshold(cfg)
  {
    DisarmIffStreakReachesThreshold(cfg, tels, k);
    assert forall i :: 0 <= i < |tels[..k]| ==> !Disqualified(cfg, tels[..k][i]);
  }

  /** Every disarm the crash check asks for has taken effect by the following tick. */
  predicate DisarmHonoured(cfg: Config, tels: seq<Telemetry>) {
    forall k :: 1 <= k < |tels| ==> Disarm in CrashTickActions(cfg, tels, k) ==> !tels[k].armed
  }

  /**
   * The check does not latch: the counter stays within the threshold only
   * because a disarm removes the armed precondition on the next tick.
   */
  lemma {:induction false} CounterWithinThreshold(cfg: Config, tels: seq<Telemetry>)
    requires cfg.loopRateHz > 0
    requires DisarmHonoured(cfg, tels)
    ensures CrashRun(cfg, tels).counter <= Threshold(cfg)
    decreases |tels|
  {
    if |tels| > 0 {
      var p := tels[..|tels| - 1];
      assert DisarmHonoured(cfg, p) by {
        forall k | 1 <= k < |p|
          ensures Disarm in CrashTickActions(cfg, p, k) ==> !p[k].armed
        {
          assert p[..k - 1] == tels[..k - 1];
          assert CrashTickActions(cfg, p, k) == CrashTickActions(cfg, tels, k);
        }
      }
      CounterWithinThreshold(cfg, p);
      if CrashRun(cfg, p).counter == Threshold(cfg) {
        assert p[..|p| - 1] == tels[..|p| - 1];
        assert Disarm in CrashTickActions(cfg, tels, |p|);
      }
    }
  }
}

=== FILE: monitors.dfy ===
/**
 * Both monitors side by side on the same tick inputs.
 */
module Monitors {
  import opened Types
  import opened CrashCheck
  import opened ParachuteCheck

  /**
   * A disarmed tick zeroes both counters and commands nothing, provided the
   * parachute is enabled; a disabled parachute check leaves its counter alone.
   */
  lemma DisarmedResetsBoth(c: CrashState, p: ParachuteState, cfg: Config, tel: Telemetry)
    requires !tel.armed
    ensures CrashStep(c, cfg, tel) == Step(CrashState(0), [])
    ensures cfg.parachuteEnabled ==> ParachuteStep(p, cfg, tel).state.count == 0
    ensures cfg.parachuteEnabled ==> Commands(ParachuteStep(p, cfg, tel).actions) == []
    ensures !cfg.parachuteEnabled ==> ParachuteStep(p, cfg, tel) == Step(p, [])
  {
  }
}

=== FILE: parachute_check.dfy ===
/**
 * Copter::parachute_check, Copter::parachute_release and
 * Copter::parachute_manual_release: a loss-of-control debounce counter with
 * ordered reset guards, a hold while the two climb-rate sources disagree, a
 * minimum-altitude gate for fresh episodes, a hysteresis decrement on a good
 * attitude and a cap computed from the trigger delay, reaching which releases
 * the parachute.
 */
module ParachuteCheck {
  import opened Types
  import opened StatusThrottle
  import CrashCheck

  /** FLT_EPSILON, 2^-23: `is_positive` on a float means at least this. */
  const FltEpsilon: real := 0.00000011920928955078125

  predicate IsPositive(x: real) {
    x >= FltEpsilon
  }

  /** The statics `control_loss_count`, `last_gcs_sent` and `last_gcs_type`. */
  datatype ParachuteState = ParachuteState(count: U16, throttle: Throttle)

  /** `uint32_t(trigger_delay) * loop_rate_hz / 1000`, the product wrapping at 2^32. */
  function Bound(cfg: Config): (b: U32)
    ensures cfg.triggerDelayMs * cfg.loopRateHz < U32Modulus ==> b * 1000 <= cfg.triggerDelayMs * cfg.loopRateHz < (b + 1) * 1000
  {
    ((cfg.triggerDelayMs * cfg.loopRateHz) % U32Modulus) / 1000
  }

  /** The altitude gate: a configured minimum (metres) that the current altitude (cm) is under. */
  predicate BelowMinAlt(cfg: Config, tel: Telemetry) {
    cfg.altMinM != 0 && tel.altCm < cfg.altMinM * 100
  }

  /** Armed, in an angle-stabilised mode and not landed. */
  predicate Flying(tel: Telemetry) {
    tel.armed && !IsAcroOrFlip(tel.mode) && !tel.landed
  }

  /** Both climb-rate sources say the vehicle is climbing. */
  predicate BothClimbing(tel: Telemetry) {
    IsPositive(tel.baroClimbRate) && tel.climbRate > 0
  }

  /** Exactly one climb-rate source says the vehicle is climbing. */
  predicate ClimbSourcesDisagree(tel: Telemetry) {
    IsPositive(tel.baroClimbRate) != (tel.climbRate > 0)
  }

  /** Neither climb-rate source says the vehicle is climbing. */
  predicate Descending(tel: Telemetry) {
    !IsPositive(tel.baroClimbRate) && tel.climbRate <= 0
  }

  /** Attitude within 30 degrees of its target (the crash check's constant is the one compared). */
  predicate AngleWithinLimit(tel: Telemetry) {
    tel.angleErrorDeg <= CrashCheck.AngleDeviationDeg
  }

  /** The sequence of parachute_release: notify, log, disarm, release, deploy the gear. */
  function ReleaseActions(): (r: seq<Action>)
    ensures |r| == 5
    ensures Commands(r) == [Disarm, ParachuteRelease, GearDeploy]
    ensures Send(Info, Released) in r && LogReleasedEvent in r
    ensures DebugSends(r) == 0
  {
    var notices := [Send(Info, Released), LogReleasedEvent];
    var commands := [Disarm, ParachuteRelease, GearDeploy];
    CommandsAppend(notices, commands);
    DebugSendsAppend(notices, commands);
    notices + commands
  }

  /** A guard that zeroes the counter and offers one notification. */
  function ResetWith(s: ParachuteState, now: U32, kind: Kind, text: Text): (r: Step<ParachuteState>)
    ensures r.state.count == 0
    ensures Commands(r.actions) == [] && DebugSends(r.actions) <= 1
    ensures r.actions != [] <==> ShouldSend(s.throttle, now, kind)
    ensures r.actions != [] ==> r.actions == [Send(Debug, text)]
    ensures r.state.throttle == ThrottleAfter(s.throttle, now, kind)
  {
    var n := Notify(s.throttle, now, kind, text);
    Step(ParachuteState(0, n.state), n.actions)
  }

  /** The disagreement hold: counter kept, one notification offered. */
  function HoldWith(s: ParachuteState, now: U32): (r: Step<ParachuteState>)
    ensures r.state.count == s.count
    ensures Commands(r.actions) == [] && DebugSends(r.actions) <= 1
    ensures r.actions != [] <==> ShouldSend(s.throttle, now, Disagree)
    ensures r.actions != [] ==> r.actions == [Send(Debug, SourcesDisagree)]
    ensures r.state.throttle == ThrottleAfter(s.throttle, now, Disagree)
  {
    var n := Notify(s.throttle, now, Disagree, SourcesDisagree);
    Step(ParachuteState(s.count, n.state), n.actions)
  }

  /**
   * The good-angle branch: decrement with floor 0, then the two kind-5 offers
   * of one tick. The second offer can never go out after the first, so the
   * "counter is 0" text is sent only when the counter already was zero.
   */
  function GoodAngleStep(s: ParachuteState, now: U32): (r: Step<ParachuteState>)
    ensures r.state.count == if s.count > 0 then s.count - 1 else 0
    ensures Commands(r.actions) == [] && DebugSends(r.actions) <= 1
    ensures r.actions != [] <==> ShouldSend(s.throttle, now, GoodAngle)
    ensures r.actions != [] ==> r.actions == [Send(Debug, if s.count > 0 then ReduceCounter(r.state.count) else CounterIsZero)]
    ensures r.state.throttle == ThrottleAfter(s.throttle, now, GoodAngle)
  {
    var first := if s.count > 0 then Notify(s.throttle, now, GoodAngle, ReduceCounter(s.count - 1))
                 else Step(s.throttle, []);
    var second := Notify(first.state, now, GoodAngle, CounterIsZero);
    CommandsAppend(first.actions, second.actions);
    DebugSendsAppend(first.actions, second.actions);
    Step(ParachuteState(if s.count > 0 then s.count - 1 else 0, second.state), first.actions + second.actions)
  }

  /** The increment below the cap; the uint16_t counter wraps at 2^16. */
  function IncreaseStep(s: ParachuteState, now: U32): (r: Step<ParachuteState>)
    ensures s.count + 1 < U16Modulus ==> r.state.count == s.count + 1
    ensures s.count + 1 == U16Modulus ==> r.state.count == 0
    ensures Commands(r.actions) == [] && DebugSends(r.actions) <= 1
    ensures r.actions != [] <==> ShouldSend(s.throttle, now, Increasing)
    ensures r.actions != [] ==> r.actions == [Send(Debug, IncreaseCounter(r.state.count))]
    ensures r.state.throttle == ThrottleAfter(s.throttle, now, Increasing)
  {
    var c := (s.count + 1) % U16Modulus;
    var n := Notify(s.throttle, now, Increasing, IncreaseCounter(c));
    Step(ParachuteState(c, n.state), n.actions)
  }

  /** The last `|b|` elements of `a + b` are `b`. */
  lemma SuffixOfAppend(a: seq<Action>, b: seq<Action>)
    ensures (a + b)[|a|..] == b
  {
  }

  /** The kind-7 offer followed by the loss-of-control error log. */
  function LossNotices(t: Throttle, now: U32): (r: Step<Throttle>)
    ensures Commands(r.actions) == []
    ensures DebugSends(r.actions) == 1 <==> ShouldSend(t, now, Releasing)
    ensures DebugSends(r.actions) <= 1
    ensures ShouldSend(t, now, Releasing) ==> r.actions[0] == Send(Debug, LossOfControl)
    ensures LogError(LossOfControlDetected) in r.actions
    ensures r.state == ThrottleAfter(t, now, Releasing)
  {
    var n := Notify(t, now, Releasing, LossOfControl);
    CommandsAppend(n.actions, [LogError(LossOfControlDetected)]);
    DebugSendsAppend(n.actions, [LogError(LossOfControlDetected)]);
    Step(n.state, n.actions + [LogError(LossOfControlDetected)])
  }

  /** The cap reached: reset the counter, notify, log the loss of control, run parachute_release. */
  function ReleaseStep(s: ParachuteState, now: U32): (r: Step<ParachuteState>)
    ensures r.state.count == 0
    ensures Commands(r.actions) == [Disarm, ParachuteRelease, GearDeploy]
    ensures LogError(LossOfControlDetected) in r.actions
    ensures DebugSends(r.actions) <= 1
    ensures DebugSends(r.actions) == 1 <==> ShouldSend(s.throttle, now, Releasing)
    ensures ShouldSend(s.throttle, now, Releasing) ==> r.actions[0] == Send(Debug, LossOfControl)
    ensures r.state.throttle == ThrottleAfter(s.throttle, now, Releasing)
    // The tick ends with the whole of parachute_release.
    ensures |r.actions| >= 6 && r.actions[|r.actions| - 5..] == ReleaseActions()
  {
    var a := LossNotices(s.throttle, now);
    var release := ReleaseActions();
    CommandsAppend(a.actions, release);
    DebugSendsAppend(a.actions, release);
    SuffixOfAppend(a.actions, release);
    Step(ParachuteState(0, a.state), a.actions + release)
  }

  /** Everything parachute_check does after parachute.update(), in the source's order. */
  function Evaluate(s: ParachuteState, cfg: Config, tel: Telemetry): (r: Step<ParachuteState>)
    ensures DebugSends(r.actions) <= 1
    ensures s.count <= Bound(cfg) ==> r.state.count <= Bound(cfg)
    ensures Commands(r.actions) == [] || (Commands(r.actions) == [Disarm, ParachuteRelease, GearDeploy] && r.state.count == 0)
  {
    var now := tel.nowMs;
    if !tel.armed then ResetWith(s, now, NotArmed, MotorsNotArmed)
    else if IsAcroOrFlip(tel.mode) then ResetWith(s, now, AcroOrFlip, AcroOrFlipReset)
    else if tel.landed then ResetWith(s, now, Landed, LandedReset)
    else if IsPositive(tel.baroClimbRate) then
      if tel.climbRate > 0 then ResetWith(s, now, Climbing, ClimbingReset)
      else HoldWith(s, now)
    else if tel.climbRate > 0 then HoldWith(s, now)
    else if s.count == 0 && BelowMinAlt(cfg, tel) then Step(s, [])
    else if AngleWithinLimit(tel) then GoodAngleStep(s, now)
    else if s.count < Bound(cfg) then IncreaseStep(s, now)
    else ReleaseStep(s, now)
  }

  /** One call of parachute_check. */
  function ParachuteStep(s: ParachuteState, cfg: Config, tel: Telemetry): (r: Step<ParachuteState>)
    ensures !cfg.parachuteEnabled ==> r == Step(s, [])
    ensures cfg.parachuteEnabled ==> |r.actions| >= 1 && r.actions[0] == ParachuteUpdate
    ensures s.count <= Bound(cfg) ==> r.state.count <= Bound(cfg)
    ensures DebugSends(r.actions) <= 1
  {
    if !cfg.parachuteEnabled then Step(s, [])
    else
      var e := Evaluate(s, cfg, tel);
      DebugSendsAppend([ParachuteUpdate], e.actions);
      Step(e.state, [ParachuteUpdate] + e.actions)
  }

  /**
   * parachute_manual_release: nothing when the parachute is disabled, a
   * refusal when landed or under the minimum altitude, the release otherwise.
   */
  function ManualRelease(cfg: Config, tel: Telemetry): (r: seq<Action>)
    ensures !cfg.parachuteEnabled ==> r == []
    ensures Commands(r) != [] <==> cfg.parachuteEnabled && !tel.landed && !BelowMinAlt(cfg, tel)
    ensures Commands(r) != [] ==> r == ReleaseActions()
    // The landed refusal returns before the altitude is looked at.
    ensures cfg.parachuteEnabled && tel.landed
            ==> r == [Send(Info, ReleaseLanded), LogError(ParachuteLanded)]
    ensures cfg.parachuteEnabled && !tel.landed && BelowMinAlt(cfg, tel)
            ==> r == [Send(Alert, ReleaseTooLow), LogError(ParachuteTooLow)]
  {
    if !cfg.parachuteEnabled then []
    else if tel.landed then [Send(Info, ReleaseLanded), LogError(ParachuteLanded)]
    else if BelowMinAlt(cfg, tel) then [Send(Alert, ReleaseTooLow), LogError(ParachuteTooLow)]
    else ReleaseActions()
  }
}

=== FILE: parachute_lemmas.dfy ===
/**
 * Properties of a single tick of the loss-of-control monitor: which guards
 * reset the counter, which hold it, the hysteresis on a good attitude, and
 * exactly when the parachute is released.
 */
module ParachuteLemmas {
  import opened Types
  import opened StatusThrottle
  import opened ParachuteCheck

  /** The guards that zero the counter: disarmed, ACRO/FLIP, landed, or both sources climbing. */
  lemma ResetGuards(s: ParachuteState, cfg: Config, tel: Telemetry)
    requires cfg.parachuteEnabled
    requires !Flying(tel) || BothClimbing(tel)
    ensures ParachuteStep(s, cfg, tel).state.count == 0
    ensures Commands(ParachuteStep(s, cfg, tel).actions) == []
  {
  }

  /** While the climb-rate sources disagree the counter is frozen and nothing is released. */
  lemma DisagreementHolds(s: ParachuteState, cfg: Config, tel: Telemetry)
    requires cfg.parachuteEnabled && Flying(tel) && ClimbSourcesDisagree(tel)
    ensures ParachuteStep(s, cfg, tel).state.count == s.count
    ensures Commands(ParachuteStep(s, cfg, tel).actions) == []
  {
  }

  /** A fresh episode under the minimum altitude leaves every piece of state as it was. */
  lemma AltitudeGateHolds(s: ParachuteState, cfg: Config, tel: Telemetry)
    requires cfg.parachuteEnabled && Flying(tel) && Descending(tel)
    requires s.count == 0 && BelowMinAlt(cfg, tel)
    ensures ParachuteStep(s, cfg, tel) == Step(s, [ParachuteUpdate])
  {
  }

  /** Past the gates, whether the tick counts towards a loss of control. */
  predicate Counting(s: ParachuteState, cfg: Config, tel: Telemetry) {
    && cfg.parachuteEnabled && Flying(tel) && Descending(tel)
    && !(s.count == 0 && BelowMinAlt(cfg, tel))
  }

  /**
   * A good attitude takes one off the counter, never below zero and never
   * straight to zero, releases nothing and sends at most one notification.
   */
  lemma GoodAngleHysteresis(s: ParachuteState, cfg: Config, tel: Telemetry)
    requires Counting(s, cfg, tel) && AngleWithinLimit(tel)
    ensures ParachuteStep(s, cfg, tel).state.count == if s.count > 0 then s.count - 1 else 0
    ensures Commands(ParachuteStep(s, cfg, tel).actions) == []
  {
  }

  /** A bad attitude under the cap adds one to the counter and releases nothing. */
  lemma BadAngleUnderCapCounts(s: ParachuteState, cfg: Config, tel: Telemetry)
    requires Counting(s, cfg, tel) && !AngleWithinLimit(tel)
    requires s.count < Bound(cfg)
    ensures s.count + 1 < U16Modulus ==> ParachuteStep(s, cfg, tel).state.count == s.count + 1
    ensures Commands(ParachuteStep(s, cfg, tel).actions) == []
  {
  }

  /** A bad attitude at the cap releases the parachute and starts the counter over. */
  lemma BadAngleAtCapReleases(s: ParachuteState, cfg: Config, tel: Telemetry)
    requires Counting(s, cfg, tel) && !AngleWithinLimit(tel)
    requires s.count >= Bound(cfg)
    ensures ParachuteStep(s, cfg, tel).state.count == 0
    ensures Commands(ParachuteStep(s, cfg, tel).actions) == [Disarm, ParachuteRelease, GearDeploy]
    ensures LogError(LossOfControlDetected) in ParachuteStep(s, cfg, tel).actions
  {
    AtCapTick(s, cfg, tel);
    UpdateThenRelease(ReleaseStep(s, tel.nowMs), ParachuteStep(s, cfg, tel));
  }

  /** Putting `parachute.update()` in front of a release keeps what the release states. */
  lemma UpdateThenRelease(r: Step<ParachuteState>, t: Step<ParachuteState>)
    requires r.state.count == 0
    requires Commands(r.actions) == [Disarm, ParachuteRelease, GearDeploy]
    requires LogError(LossOfControlDetected) in r.actions
    requires t == Step(r.state, [ParachuteUpdate] + r.actions)
    ensures t.state.count == 0
    ensures Commands(t.actions) == [Disarm, ParachuteRelease, GearDeploy]
    ensures LogError(LossOfControlDetected) in t.actions
  {
    CommandsAppend([ParachuteUpdate], r.actions);
  }

  /** A counting tick with a bad attitude at the cap is `parachute.update()` followed by the release branch. */
  lemma AtCapTick(s: ParachuteState, cfg: Config, tel: Telemetry)
    requires Counting(s, cfg, tel) && !AngleWithinLimit(tel)
    requires s.count >= Bound(cfg)
    ensures ParachuteStep(s, cfg, tel)
            == Step(ReleaseStep(s, tel.nowMs).state, [ParachuteUpdate] + ReleaseStep(s, tel.nowMs).actions)
  {
    assert Evaluate(s, cfg, tel) == ReleaseStep(s, tel.nowMs);
  }

  /**
   * The automatic release tick is `parachute.update()`, the kind-7 offer and
   * the loss-of-control log, then the whole of parachute_release, exactly as
   * a manual release performs it.
   */
  lemma AutomaticReleaseEndsWithRelease(s: ParachuteState, cfg: Config, tel: Telemetry)
    requires Counting(s, cfg, tel) && !AngleWithinLimit(tel)
    requires s.count >= Bound(cfg)
    ensures ParachuteStep(s, cfg, tel).actions
            == [ParachuteUpdate] + (LossNotices(s.throttle, tel.nowMs).actions + ReleaseActions())
  {
    AtCapTick(s, cfg, tel);
    ReleaseStepShape(s, tel.nowMs);
  }

  lemma ReleaseStepShape(s: ParachuteState, now: U32)
    ensures ReleaseStep(s, now).actions == LossNotices(s.throttle, now).actions + ReleaseActions()
  {
  }

  /** The parachute comes out on exactly those ticks that count, show a bad attitude, and find the counter at its cap. */
  lemma ReleaseIff(s: ParachuteState, cfg: Config, tel: Telemetry)
    ensures ParachuteRelease in ParachuteStep(s, cfg, tel).actions
            <==> Counting(s, cfg, tel) && !AngleWithinLimit(tel) && s.count >= Bound(cfg)
  {
  }

  /**
   * The kind of notification a tick offers, read off the guards in the
   * source's order: `Unset` when the tick offers none (parachute disabled,
   * or a fresh episode under the minimum altitude).
   */
  function TickKind(s: ParachuteState, cfg: Config, tel: Telemetry): Kind {
    if !cfg.parachuteEnabled then Unset
    else if !tel.armed then NotArmed
    else if IsAcroOrFlip(tel.mode) then AcroOrFlip
    else if tel.landed then Landed
    else if BothClimbing(tel) then Climbing
    else if ClimbSourcesDisagree(tel) then Disagree
    else if s.count == 0 && BelowMinAlt(cfg, tel) then Unset
    else if AngleWithinLimit(tel) then GoodAngle
    else if s.count < Bound(cfg) then Increasing
    else Releasing
  }

  /**
   * The text of the notification of kind `k` on a tick that finds the
   * counter at `count`; the good-angle and increase texts print the counter
   * after the tick.
   */
  function KindText(k: Kind, count: U16): Text
    requires k != Unset
  {
    match k
    case NotArmed => MotorsNotArmed
    case AcroOrFlip => AcroOrFlipReset
    case Landed => LandedReset
    case Climbing => ClimbingReset
    case Disagree => SourcesDisagree
    case GoodAngle => if count > 0 then ReduceCounter(count - 1) else CounterIsZero
    case Increasing => IncreaseCounter((count + 1) % U16Modulus)
    case Releasing => LossOfControl
  }

  /**
   * After `parachute.update()`, a tick with a kind runs the throttle once on
   * that kind, and the message it lets through comes first and carries the
   * kind's text.
   */
  lemma EvaluateFollowsTickKind(s: ParachuteState, cfg: Config, tel: Telemetry)
    requires TickKind(s, cfg, tel) != Unset
    ensures var e := Evaluate(s, cfg, tel);
            e.state.throttle == ThrottleAfter(s.throttle, tel.nowMs, TickKind(s, cfg, tel))
    ensures DebugSends(Evaluate(s, cfg, tel).actions) == 1 <==> ShouldSend(s.throttle, tel.nowMs, TickKind(s, cfg, tel))
    ensures ShouldSend(s.throttle, tel.nowMs, TickKind(s, cfg, tel))
            ==> |Evaluate(s, cfg, tel).actions| > 0
                && Evaluate(s, cfg, tel).actions[0] == Send(Debug, KindText(TickKind(s, cfg, tel), s.count))
  {
    var now := tel.nowMs;
    if !tel.armed {
      assert Evaluate(s, cfg, tel) == ResetWith(s, now, NotArmed, MotorsNotArmed);
    } else if IsAcroOrFlip(tel.mode) {
      assert Evaluate(s, cfg, tel) == ResetWith(s, now, AcroOrFlip, AcroOrFlipReset);
    } else if tel.landed {
      assert Evaluate(s, cfg, tel) == ResetWith(s, now, Landed, LandedReset);
    } else if BothClimbing(tel) {
      assert Evaluate(s, cfg, tel) == ResetWith(s, now, Climbing, ClimbingReset);
    } else if ClimbSourcesDisagree(tel) {
      assert Evaluate(s, cfg, tel) == HoldWith(s, now);
    } else if AngleWithinLimit(tel) {
      assert Evaluate(s, cfg, tel) == GoodAngleStep(s, now);
    } else if s.count < Bound(cfg) {
      assert Evaluate(s, cfg, tel) == IncreaseStep(s, now);
    } else {
      assert Evaluate(s, cfg, tel) == ReleaseStep(s, now);
    }
  }

  /**
   * Every tick runs the throttle once, on its own kind: the throttle records
   * (now, kind) iff more than 500 ms have passed or the kind changed, and is
   * left as it was otherwise.
   */
  lemma ThrottleFollowsTickKind(s: ParachuteState, cfg: Config, tel: Telemetry)
    requires TickKind(s, cfg, tel) != Unset
    ensures ParachuteStep(s, cfg, tel).state.throttle == ThrottleAfter(s.throttle, tel.nowMs, TickKind(s, cfg, tel))
  {
    EvaluateFollowsTickKind(s, cfg, tel);
  }

  /**
   * A tick sends its debug message iff the throttle lets the tick's kind
   * through, and that message, right after `parachute.update()`, carries the
   * text of the branch taken.
   */
  lemma NotificationFollowsTickKind(s: ParachuteState, cfg: Config, tel: Telemetry)
    requires TickKind(s, cfg, tel) != Unset
    ensures DebugSends(ParachuteStep(s, cfg, tel).actions) == 1 <==> ShouldSend(s.throttle, tel.nowMs, TickKind(s, cfg, tel))
    ensures ShouldSend(s.throttle, tel.nowMs, TickKind(s, cfg, tel))
            ==> |ParachuteStep(s, cfg, tel).actions| > 1
                && ParachuteStep(s, cfg, tel).actions[1] == Send(Debug, KindText(TickKind(s, cfg, tel), s.count))
  {
    EvaluateFollowsTickKind(s, cfg, tel);
    DebugSendsAppend([ParachuteUpdate], Evaluate(s, cfg, tel).actions);
  }

  /** A tick without a kind (parachute disabled, or the altitude gate) sends nothing and leaves the throttle alone. */
  lemma QuietTickKeepsThrottle(s: ParachuteState, cfg: Config, tel: Telemetry)
    requires TickKind(s, cfg, tel) == Unset
    ensures ParachuteStep(s, cfg, tel).state.throttle == s.throttle
    ensures DebugSends(ParachuteStep(s, cfg, tel).actions) == 0
  {
  }

  /**
   * A manual release that passes its guards commands the hardware exactly as
   * an automatic release does.
   */
  lemma ManualMatchesAutomaticRelease(s: ParachuteState, cfg: Config, tel: Telemetry, pilot: Telemetry)
    requires Counting(s, cfg, tel) && !AngleWithinLimit(tel) && s.count >= Bound(cfg)
    requires !pilot.landed && !BelowMinAlt(cfg, pilot)
    ensures Commands(ManualRelease(cfg, pilot)) == Commands(ParachuteStep(s, cfg, tel).actions)
  {
  }
}

=== FILE: parachute_runs.dfy ===
/**
 * The loss-of-control monitor over a run of consecutive ticks: the counter
 * never leaves [0, bound], and under a continuous loss of control it climbs
 * one per tick from zero to the bound, releases the parachute on the next
 * tick, and starts over.
 */
module ParachuteRuns {
  import opened Types
  import opened ParachuteCheck
  import opened ParachuteLemmas

  /** The state after feeding `tels` to parachute_check from `s0`, one tick each. */
  function ParachuteRun(s0: ParachuteState, cfg: Config, tels: seq<Telemetry>): ParachuteState
    decreases |tels|
  {
    if |tels| == 0 then s0
    else ParachuteStep(ParachuteRun(s0, cfg, tels[..|tels| - 1]), cfg, tels[|tels| - 1]).state
  }

  /** The actions of tick `k` (counted from 1) of the run `tels`. */
  function ParachuteTickActions(s0: ParachuteState, cfg: Config, tels: seq<Telemetry>, k: int): seq<Action>
    requires 1 <= k <= |tels|
  {
    ParachuteStep(ParachuteRun(s0, cfg, tels[..k - 1]), cfg, tels[k - 1]).actions
  }

  /** Whatever the ticks, a counter that starts within the bound stays within it. */
  lemma {:induction false} CountStaysWithinBound(s0: ParachuteState, cfg: Config, tels: seq<Telemetry>)
    requires s0.count <= Bound(cfg)
    ensures ParachuteRun(s0, cfg, tels).count <= Bound(cfg)
    decreases |tels|
  {
    if |tels| > 0 {
      CountStaysWithinBound(s0, cfg, tels[..|tels| - 1]);
    }
  }

  /** A tick of continuous loss of control: armed, flying, both sources descending, above the gate, bad attitude. */
  predicate OutOfControl(cfg: Config, tel: Telemetry) {
    && cfg.parachuteEnabled && Flying(tel) && Descending(tel)
    && !BelowMinAlt(cfg, tel) && !AngleWithinLimit(tel)
  }

  lemma MulAtLeast(a: int, m: int)
    requires a >= 1 && m > 0
    ensures a * m >= m
  {
  }

  /** Quotient and remainder are determined by n == q * m + r with 0 <= r < m. */
  lemma DivModUnique(n: int, m: int, q: int, r: int)
    requires m > 0 && 0 <= r < m && n == q * m + r
    ensures n / m == q && n % m == r
  {
    var q', r' := n / m, n % m;
    assert n == q' * m + r';
    assert (q - q') * m == r' - r;
    if q > q' {
      MulAtLeast(q - q', m);
    } else if q < q' {
      MulAtLeast(q' - q, m);
    }
  }

  /** Counting modulo m: the successor's remainder is one more, or zero after m - 1. */
  lemma ModSucc(n: nat, m: nat)
    requires m > 0
    ensures (n + 1) % m == if n % m == m - 1 then 0 else n % m + 1
  {
    var q, r := n / m, n % m;
    assert n == q * m + r;
    if r == m - 1 {
      DivModUnique(n + 1, m, q + 1, 0);
    } else {
      DivModUnique(n + 1, m, q, r + 1);
    }
  }

  /** Under continuous loss of control from zero, the counter after n ticks is n mod (bound + 1). */
  lemma {:induction false} ContinuousLossCycles(s0: ParachuteState, cfg: Config, tels: seq<Telemetry>)
    requires s0.count == 0
    requires Bound(cfg) < U16Modulus
    requires forall i :: 0 <= i < |tels| ==> OutOfControl(cfg, tels[i])
    ensures ParachuteRun(s0, cfg, tels).count == |tels| % (Bound(cfg) + 1)
    decreases |tels|
  {
    if |tels| > 0 {
      var p := tels[..|tels| - 1];
      var s := ParachuteRun(s0, cfg, p);
      var tel := tels[|tels| - 1];
      ContinuousLossCycles(s0, cfg, p);
      ModSucc(|p|, Bound(cfg) + 1);
      if s.count < Bound(cfg) {
        BadAngleUnderCapCounts(s, cfg, tel);
      } else {
        BadAngleAtCapReleases(s, cfg, tel);
      }
    }
  }

  /**
   * Under continuous loss of control from zero, tick k releases the parachute
   * exactly when k is a multiple of bound + 1: the first release is on tick
   * bound + 1.
   */
  lemma ReleaseEveryBoundPlusOneTicks(s0: ParachuteState, cfg: Config, tels: seq<Telemetry>, k: int)
    requires s0.count == 0
    requires Bound(cfg) < U16Modulus
    requires forall i :: 0 <= i < |tels| ==> OutOfControl(cfg, tels[i])
    requires 1 <= k <= |tels|
    ensures ParachuteRelease in ParachuteTickActions(s0, cfg, tels, k) <==> k % (Bound(cfg) + 1) == 0
  {
    var p := tels[..k - 1];
    assert forall i :: 0 <= i < |p| ==> OutOfControl(cfg, p[i]);
    ContinuousLossCycles(s0, cfg, p);
    ModSucc(k - 1, Bound(cfg) + 1);
    ReleaseIff(ParachuteRun(s0, cfg, p), cfg, tels[k - 1]);
  }

  /**
   * Under continuous loss of control from zero, ticks 1 to bound release
   * nothing and tick bound + 1 releases the parachute.
   */
  lemma FirstReleaseOnTickBoundPlusOne(s0: ParachuteState, cfg: Config, tels: seq<Telemetry>)
    requires s0.count == 0
    requires Bound(cfg) < U16Modulus
    requires |tels| > Bound(cfg)
    requires forall i :: 0 <= i < |tels| ==> OutOfControl(cfg, tels[i])
    ensures forall k :: 1 <= k <= Bound(cfg) ==> ParachuteRelease !in ParachuteTickActions(s0, cfg, tels, k)
    ensures ParachuteRelease in ParachuteTickActions(s0, cfg, tels, Bound(cfg) + 1)
  {
    forall k | 1 <= k <= Bound(cfg)
      ensures ParachuteRelease !in ParachuteTickActions(s0, cfg, tels, k)
    {
      NoReleaseBeforeCap(s0, cfg, tels, k);
    }
    ReleaseOnCapTick(s0, cfg, tels);
  }

  /** Tick bound + 1 of a continuous loss of control releases the parachute. */
  lemma ReleaseOnCapTick(s0: ParachuteState, cfg: Config, tels: seq<Telemetry>)
    requires s0.count == 0
    requires Bound(cfg) < U16Modulus
    requires |tels| > Bound(cfg)
    requires forall i :: 0 <= i < |tels| ==> OutOfControl(cfg, tels[i])
    ensures ParachuteRelease in ParachuteTickActions(s0, cfg, tels, Bound(cfg) + 1)
  {
    var m := Bound(cfg) + 1;
    DivModUnique(m, m, 1, 0);
    ReleaseEveryBoundPlusOneTicks(s0, cfg, tels, m);
  }

  /** Ticks 1 to bound of a continuous loss of control release nothing. */
  lemma NoReleaseBeforeCap(s0: ParachuteState, cfg: Config, tels: seq<Telemetry>, k: int)
    requires s0.count == 0
    requires Bound(cfg) < U16Modulus
    requires forall i :: 0 <= i < |tels| ==> OutOfControl(cfg, tels[i])
    requires 1 <= k <= |tels| && k <= Bound(cfg)
    ensures ParachuteRelease !in ParachuteTickActions(s0, cfg, tels, k)
  {
    var m := Bound(cfg) + 1;
    SmallMod(k, m);
    ReleaseEveryBoundPlusOneTicks(s0, cfg, tels, k);
  }

  lemma SmallMod(k: int, m: int)
    requires 0 < k < m
    ensures k % m != 0
  {
  }

  /**
   * Trigger delay 1000 ms at 400 Hz gives a bound of 400 ticks; under
   * continuous loss of control the parachute is still held on tick 400 and
   * released on tick 401.
   */
  lemma ReleaseTickAt400Hz(s0: ParachuteState, cfg: Config, tels: seq<Telemetry>)
    requires cfg.triggerDelayMs == 1000 && cfg.loopRateHz == 400
    requires s0.count == 0
    requires |tels| >= 401
    requires forall i :: 0 <= i < |tels| ==> OutOfControl(cfg, tels[i])
    ensures Bound(cfg) == 400
    ensures ParachuteRelease !in ParachuteTickActions(s0, cfg, tels, 400)
    ensures ParachuteRelease in ParachuteTickActions(s0, cfg, tels, 401)
  {
    BoundAt400Hz(cfg);
    NoReleaseBeforeCap(s0, cfg, tels, 400);
    ReleaseOnCapTick(s0, cfg, tels);
  }

  lemma BoundAt400Hz(cfg: Config)
    requires cfg.triggerDelayMs == 1000 && cfg.loopRateHz == 400
    ensures Bound(cfg) == 400
  {
    assert cfg.triggerDelayMs * cfg.loopRateHz == 400000;
  }
}

=== FILE: status_throttle.dfy ===
/**
 * The rate limiter that parachute_check repeats inline before each of its
 * debug notifications: a message goes out when more than 500 ms (in uint32_t
 * arithmetic) have passed since the last one, or when its kind differs from
 * the kind sent last. Here it is written once and used by every branch.
 */
module StatusThrottle {
  import opened Types

  /** The tags stored in `last_gcs_type`; the comment gives the source's number. */
  datatype Kind =
    | Unset        // 0, before anything was sent
    | NotArmed     // 1
    | AcroOrFlip   // 2
    | Landed       // 3
    | Climbing     // 4
    | GoodAngle    // 5
    | Increasing   // 6
    | Releasing    // 7
    | Disagree     // 8

  /** `last_gcs_sent` and `last_gcs_type`. */
  datatype Throttle = Throttle(lastSentMs: U32, lastKind: Kind)

  const WindowMs: int := 500

  /** `now - last` computed in uint32_t, i.e. modulo 2^32. */
  function Elapsed(now: U32, last: U32): (r: U32)
    ensures now >= last ==> r == now - last
    ensures now < last ==> r == U32Modulus - (last - now)
  {
    (now - last) % U32Modulus
  }

  /** The test `now - last_gcs_sent > 500 || last_gcs_type != kind`. */
  predicate ShouldSend(t: Throttle, now: U32, kind: Kind) {
    Elapsed(now, t.lastSentMs) > WindowMs || t.lastKind != kind
  }

  /** The fields after offering `kind` at `now`: the offer is recorded iff it goes out. */
  function ThrottleAfter(t: Throttle, now: U32, kind: Kind): Throttle {
    if ShouldSend(t, now, kind) then Throttle(now, kind) else t
  }

  /**
   * Offers one debug notification of `kind` at time `now`. Either it is sent
   * and both fields record it, or nothing is sent and nothing changes.
   */
  function Notify(t: Throttle, now: U32, kind: Kind, text: Text): (r: Step<Throttle>)
    ensures |r.actions| <= 1
    ensures r.actions != [] <==> ShouldSend(t, now, kind)
    ensures r.actions != [] ==> r.actions == [Send(Debug, text)] && r.state == Throttle(now, kind)
    ensures r.actions == [] ==> r.state == t
    ensures r.state == ThrottleAfter(t, now, kind)
    ensures Commands(r.actions) == []
    ensures DebugSends(r.actions) == |r.actions|
  {
    if ShouldSend(t, now, kind) then Step(Throttle(now, kind), [Send(Debug, text)])
    else Step(t, [])
  }

  /** A kind other than the last one sent is never held back. */
  lemma NewKindAlwaysSent(t: Throttle, now: U32, kind: Kind, text: Text)
    requires t.lastKind != kind
    ensures Notify(t, now, kind, text).actions == [Send(Debug, text)]
    ensures Notify(t, now, kind, text).state == Throttle(now, kind)
  {
  }

  /**
   * Once a kind has been sent at `sent`, the same kind is sent again at `now`
   * exactly when more than 500 ms have passed, counted modulo 2^32.
   */
  lemma SameKindWindow(t: Throttle, sent: U32, now: U32, kind: Kind, first: Text, second: Text)
    requires Notify(t, sent, kind, first).actions != []
    ensures Notify(Notify(t, sent, kind, first).state, now, kind, second).actions != []
            <==> (if now >= sent then now - sent else U32Modulus - (sent - now)) > WindowMs
  {
  }

  /** Offering the same kind twice within one tick sends at most one message. */
  lemma OncePerTick(t: Throttle, now: U32, kind: Kind, first: Text, second: Text)
    ensures var a := Notify(t, now, kind, first);
            |a.actions + Notify(a.state, now, kind, second).actions| <= 1
  {
  }
}

=== FILE: types.dfy ===
/**
 * Shared vocabulary of the crash and loss-of-control monitors of ArduCopter:
 * the fixed-width integer ranges of the persistent counters, the parameters
 * and per-tick inputs the monitors read, and the action tokens a tick emits
 * towards the collaborators outside the model (motors, parachute, landing
 * gear, ground station, dataflash log).
 */
module Types {

  /** Values of a `uint16_t`. */
  type U16 = x: int | 0 <= x < 0x1_0000
  /** Values of a `uint32_t`. */
  type U32 = x: int | 0 <= x < 0x1_0000_0000

  const U16Modulus: int := 0x1_0000
  const U32Modulus: int := 0x1_0000_0000

  /** Flight modes; only ACRO and FLIP are told apart by the monitors. */
  datatype FlightMode = Acro | Flip | OtherMode(id: nat)

  /** Modes that invert the vehicle on purpose, so attitude error proves nothing. */
  predicate IsAcroOrFlip(m: FlightMode) {
    m.Acro? || m.Flip?
  }

  /** MAVLink severities of the operator notifications. */
  datatype Severity = Emergency | Alert | Info | Debug

  /** The operator notifications, one constructor per message text. */
  datatype Text =
    | CrashDisarming
    | MotorsNotArmed
    | AcroOrFlipReset
    | LandedReset
    | ClimbingReset
    | SourcesDisagree
    | ReduceCounter(count: int)
    | CounterIsZero
    | IncreaseCounter(count: int)
    | LossOfControl
    | Released
    | ReleaseLanded
    | ReleaseTooLow

  /** The (subsystem, code) pairs written to the dataflash error log. */
  datatype ErrorCode =
    | CrashDetected           // CRASH_CHECK / CRASH_CHECK_CRASH
    | LossOfControlDetected   // CRASH_CHECK / CRASH_CHECK_LOSS_OF_CONTROL
    | ParachuteLanded         // PARACHUTE / PARACHUTE_LANDED
    | ParachuteTooLow         // PARACHUTE / PARACHUTE_TOO_LOW

  /** What one tick asks of the world outside the monitors. */
  datatype Action =
    | Disarm                  // init_disarm_motors()
    | ParachuteUpdate         // parachute.update()
    | ParachuteRelease        // parachute.release()
    | GearDeploy              // landinggear.set_position(LandingGear_Deploy)
    | Send(severity: Severity, text: Text)
    | LogError(code: ErrorCode)
    | LogReleasedEvent        // Log_Write_Event(DATA_PARACHUTE_RELEASED)

  /** Actions that move hardware, as opposed to notifications and log writes. */
  predicate IsCommand(a: Action) {
    a.Disarm? || a.ParachuteRelease? || a.GearDeploy?
  }

  /** The hardware commands of `acts`, in order. */
  function Commands(acts: seq<Action>): (r: seq<Action>)
    ensures |r| <= |acts|
    ensures forall i :: 0 <= i < |r| ==> IsCommand(r[i])
  {
    if |acts| == 0 then []
    else (if IsCommand(acts[0]) then [acts[0]] else []) + Commands(acts[1..])
  }

  /** Number of debug-severity notifications in `acts`. */
  function DebugSends(acts: seq<Action>): (n: nat)
    ensures n <= |acts|
  {
    if |acts| == 0 then 0
    else (if acts[0].Send? && acts[0].severity == Debug then 1 else 0) + DebugSends(acts[1..])
  }

  lemma {:induction false} CommandsAppend(a: seq<Action>, b: seq<Action>)
    ensures Commands(a + b) == Commands(a) + Commands(b)
  {
    if |a| == 0 {
      assert a + b == b;
    } else {
      assert (a + b)[1..] == a[1..] + b;
      CommandsAppend(a[1..], b);
    }
  }

  lemma {:induction false} DebugSendsAppend(a: seq<Action>, b: seq<Action>)
    ensures DebugSends(a + b) == DebugSends(a) + DebugSends(b)
  {
    if |a| == 0 {
      assert a + b == b;
    } else {
      assert (a + b)[1..] == a[1..] + b;
      DebugSendsAppend(a[1..], b);
    }
  }

  /** Vehicle parameters, fixed for the duration of a run of ticks. */
  datatype Config = Config(
    crashCheck: int,        // g.fs_crash_check; 0 switches the crash check off
    parachuteEnabled: bool, // parachute.enabled()
    altMinM: int,           // parachute.alt_min(), metres; 0 switches the altitude gate off
    triggerDelayMs: U32,    // g2.parachute_trigger_delay after its uint32_t cast
    loopRateHz: U16)        // scheduler.get_loop_rate_hz()

  /**
   * The inputs of one main-loop tick. The floating-point producers (filtered
   * acceleration norm, attitude error, barometric climb rate) are taken as
   * their results; `nowMs` is AP_HAL::millis().
   */
  datatype Telemetry = Telemetry(
    armed: bool,
    landed: bool,
    mode: FlightMode,
    accel: real,            // land_accel_ef_filter.get().length(), m/s/s
    angleErrorDeg: real,    // attitude_control->get_att_error_angle_deg()
    baroClimbRate: real,    // baro_climbrate, cm/s
    climbRate: int,         // climb_rate, cm/s
    altCm: int,             // current_loc.alt, cm
    nowMs: U32)

  /** The new state of a monitor and the actions its tick emitted, in order. */
  datatype Step<S> = Step(state: S, actions: seq<Action>)
}
